=== FILE: README.md ===
# Game-sign arrays of DungeonsXL, modelled in Dafny

DungeonsXL lets groups of players form a multi-group game from a wall of
signs (a "game sign"). The first sign's wall-face data byte fixes the
direction of the wall. Each column of signs is one game slot. The top sign
of a column shows the slot's state and the names of the groups in it, and
the sign directly below it continues the names. A captain clicks a column to open
a new game there or to join the game already in it.

This project models that core as pure functions and small methods over an
immutable world:

- `blocks.dfy` (module `Blocks`): the world is a finite map from `(world, x, y, z)`
  to a block record (material, data byte, four text lines). A missing key is AIR.
- `direction.dfy` (module `Direction`): decoding the wall-sign data byte into a column step.
- `location_sign.dfy` (module `LocationSign`): the compass-letter to yaw table.
- `geometry.dfy` (module `Geometry`): the row count, the bounding-box test of the
  block lookup, and the protected footprint, including the two do-while loops
  that compute it.
- `parties.dfy` (module `Parties`): opaque games, groups, dungeons and message
  texts. References are ids into a `Heap`.
- `game_signs.dfy` (module `GameSigns`): the game-sign record, its
  constructor's field set-up, the lookups by block and by game, and the
  memoised footprint.
- `sign_render.dfy` (module `SignRender`): the sign update (`update`).
- `creation.dfy` (module `Creation`): two-phase creation (`tryToCreate`).
- `interaction.dfy` (module `Interaction`): the click handler (`playerInteract`).

Java exceptions on the modelled paths are outcomes, not preconditions:

- `update` casts the block below a column's top sign to a sign once a game
  has more than three groups. When that block is not a sign, the cast throws
  a ClassCastException: `Rendered.CastFailed`.
- A join header over an empty slot dereferences null: `Outcome.Threw(NullPointer, …)`.
- A clicked column past the end of the slot array (possible with zero
  columns) throws: `Outcome.Threw(IndexOutOfBounds, …)`.

Behaviour of the code that the model keeps as written:

- Overflow names continue at line 0 of the sign below, not line 1. From the
  eighth group on they wrap round and overwrite that same sign.
- The footprint covers column offsets -1..len-1 and vertical offsets +1 down
  to -(verticalSigns-1). Both loops run one step past their bounds.
- Clearing walks every contiguous sign below a column top, with no
  `verticalSigns` limit.
- An unknown orientation code does not make creation fail. It scans nothing,
  converts nothing and still constructs a sign with the zero step.
- The block lookup compares x, y and z only, never the world.

## Model

| member | source | states |
|---|---|---|
| Direction.GetDirection | src/main/java/de/erethon/dungeonsxl/global/GameSign.java:479-500 | codes 2,3,4,5 give (-1,0),(1,0),(0,1),(0,-1); the step has exactly one ±1 component iff the code is one of those four; any other byte gives (0,0) |
| Direction.CodeRoundTrip | src/main/java/de/erethon/dungeonsxl/global/GameSign.java:482-498 | encoding the decoded step of a known code gives the code back |
| Direction.DirectionRoundTrip | src/main/java/de/erethon/dungeonsxl/global/GameSign.java:482-498 | every unit step is the decoding of exactly one known code |
| Direction.GetDirectionInjective | src/main/java/de/erethon/dungeonsxl/global/GameSign.java:482-498 | distinct known codes give distinct steps |
| LocationSign.LetterToYaw | src/main/java/de/erethon/dungeonsxl/sign/LocationSign.java:48-65 | S/s→0, W/w→90, N/n→180, E/e→-90, each both ways; -1 exactly for non-compass characters; result always in {0,90,180,-90,-1} |
| LocationSign.LetterToYawCaseInsensitive | src/main/java/de/erethon/dungeonsxl/sign/LocationSign.java:49-61 | upper and lower case of a compass letter give the same yaw |
| LocationSign.LetterRoundTrip | src/main/java/de/erethon/dungeonsxl/sign/LocationSign.java:48-61 | reading a compass letter's yaw back gives its upper-case letter |
| LocationSign.YawRoundTrip | src/main/java/de/erethon/dungeonsxl/sign/LocationSign.java:48-61 | each compass yaw is produced by its letter |
| LocationSign.CompassYawsDistinct | src/main/java/de/erethon/dungeonsxl/sign/LocationSign.java:48-61 | the four compass letters map to pairwise distinct yaws |
| Geometry.VerticalSigns | src/main/java/de/erethon/dungeonsxl/global/GameSign.java:66 | the row count vs satisfies 4(vs-1) < 1+maxGroupsPerGame <= 4vs, i.e. it is the ceiling of (1+maxGroupsPerGame)/4 |
| Geometry.VerticalSignsUnique | src/main/java/de/erethon/dungeonsxl/global/GameSign.java:66 | that ceiling characterisation determines the row count uniquely |
| Geometry.VerticalSignsSamples | src/main/java/de/erethon/dungeonsxl/global/GameSign.java:66 | 0,2,3 groups need 1 row, 4 and 7 need 2, 11 need 3 |
| Geometry.VerticalSignsPositive | src/main/java/de/erethon/dungeonsxl/global/GameSign.java:66 | a non-negative group cap needs at least one row |
| Geometry.AxisTestIsBetween | src/main/java/de/erethon/dungeonsxl/global/GameSign.java:251-263 | the branchy x/z test is inclusive betweenness of the two bounds in either order, or equality when they coincide |
| Geometry.HeightTestIsRange | src/main/java/de/erethon/dungeonsxl/global/GameSign.java:265-272 | the y test accepts anchor.y-rows+1..anchor.y, or only anchor.y when rows <= 1 |
| Geometry.InBoxIsGrid | src/main/java/de/erethon/dungeonsxl/global/GameSign.java:246-286 | for a unit step and at least one column and row, a same-world block is in the lookup box iff it is cell (column i, row k) of the sign grid for some i < columns, k < rows |
| Geometry.ComputeTops | src/main/java/de/erethon/dungeonsxl/global/GameSign.java:194-200 | the first do-while adds exactly the column tops at offsets -1..len-1 |
| Geometry.ComputeHung | src/main/java/de/erethon/dungeonsxl/global/GameSign.java:204-212 | the second do-while adds, for one top, the blocks from one above it down to verticalSigns-1 below, each with its attached block |
| Geometry.ComputeFootprint | src/main/java/de/erethon/dungeonsxl/global/GameSign.java:190-218 | the computed block set equals the footprint: the column tops plus everything hung below each of them |
| Geometry.FootprintCoversGrid | src/main/java/de/erethon/dungeonsxl/global/GameSign.java:194-214 | every sign-grid cell and the block it is attached to are in the footprint |
| Geometry.FootprintOvershoots | src/main/java/de/erethon/dungeonsxl/global/GameSign.java:194-212 | the footprint holds the block one step before the anchor and the block above it, and neither is in the lookup box |
| Parties.ResolveDungeon | src/main/java/de/erethon/dungeonsxl/global/GameSign.java:58-64 | the registered dungeon of that name if any, else a dungeon wrapping the resource world of that name, else none |
| GameSigns.NewGameSign | src/main/java/de/erethon/dungeonsxl/global/GameSign.java:53-71 | maxGames empty slots, the resolved dungeon, the ceiling row count, the step the start sign's data byte names (a unit step iff the start sign's data byte is a known code, else zero); footprint not yet computed |
| GameSigns.GetByBlock | src/main/java/de/erethon/dungeonsxl/global/GameSign.java:237-292 | none for a non-sign block; otherwise the first registered sign whose box holds the coordinates, and none iff no box holds them |
| GameSigns.GetByBlockIgnoresWorld | src/main/java/de/erethon/dungeonsxl/global/GameSign.java:242-288 | two sign blocks with equal coordinates in different worlds resolve to the same sign |
| GameSigns.GetByGame | src/main/java/de/erethon/dungeonsxl/global/GameSign.java:298-310 | the first registered sign with a slot equal to the given game reference; none iff no sign has one; a null game matches the first sign with an empty slot |
| GameSigns.GetByNullGame | src/main/java/de/erethon/dungeonsxl/global/GameSign.java:298-310 | looking up a null game finds a sign iff some registered sign has an empty slot |
| GameSigns.GetBlocks | src/main/java/de/erethon/dungeonsxl/global/GameSign.java:190-218 | the cached set when present, else the footprint, which is stored in the returned sign |
| GameSigns.GetBlocksMemoised | src/main/java/de/erethon/dungeonsxl/global/GameSign.java:191-217 | a second call, even in a changed world, returns the same set and the same sign |
| GameSigns.FootprintIndependentOfSlots | src/main/java/de/erethon/dungeonsxl/global/GameSign.java:191-217 | changing a slot does not change a computed footprint |
| SignRender.SignRun | src/main/java/de/erethon/dungeonsxl/global/GameSign.java:139-148 | the length n of the sign run below a block: the n blocks below are signs and the next one is not |
| SignRender.HeaderFor | src/main/java/de/erethon/dungeonsxl/global/GameSign.java:151-181 | new game for an empty slot or a game without groups; else is playing if the first group plays; else full iff the group count reaches maxGroupsPerGame; else join game |
| SignRender.OverflowLines | src/main/java/de/erethon/dungeonsxl/global/GameSign.java:162-177 | line j of the lower sign holds the last overflow name with index ≡ j (mod 4), or keeps its text when no name lands there |
| SignRender.RenderColumn | src/main/java/de/erethon/dungeonsxl/global/GameSign.java:124-186 | a column whose top is not a sign is skipped; no material or data byte changes; nothing outside the column's x/z line changes, and on that line nothing outside the top and the run of signs below it changes; the cast fails iff there are more than three groups and the block below the top is not a sign |
| SignRender.RenderColumnTop | src/main/java/de/erethon/dungeonsxl/global/GameSign.java:134-181 | the top sign shows the header and the first three group names, blank where there are fewer |
| SignRender.RenderColumnClears | src/main/java/de/erethon/dungeonsxl/global/GameSign.java:139-148 | every contiguous sign below the top is blanked, however long the run, except the one directly below when it takes overflow names |
| SignRender.RenderColumnOverflow | src/main/java/de/erethon/dungeonsxl/global/GameSign.java:162-177 | with more than three groups and a sign directly below, names four on are written onto that one sign from line 0 |
| SignRender.Render | src/main/java/de/erethon/dungeonsxl/global/GameSign.java:123-187 | the update renders the columns in order and stops at the first failed cast; it fails iff some column's top is a sign, its slot holds more than three groups and the block below that top is not a sign |
| SignRender.RenderStopsAtFailure | src/main/java/de/erethon/dungeonsxl/global/GameSign.java:123-187 | when column j is the first to fail its cast, the update fails and no block off the x/z lines of the columns up to j changes, so every later column keeps its old text |
| SignRender.RenderPreservesBlocks | src/main/java/de/erethon/dungeonsxl/global/GameSign.java:123-187 | rendering changes text only: every material and data byte is kept |
| SignRender.RenderFrame | src/main/java/de/erethon/dungeonsxl/global/GameSign.java:123-187 | a whole render leaves every block in another world or off all the columns' x/z lines exactly as it was |
| SignRender.RenderShowsSlots | src/main/java/de/erethon/dungeonsxl/global/GameSign.java:123-187 | after a complete render with a unit step, every column whose top is a sign shows its own slot's header and first names |
| SignRender.RenderEmptyCompletes | src/main/java/de/erethon/dungeonsxl/global/GameSign.java:151-183 | a sign with every slot empty always renders without a failed cast |
| SignRender.FiveGroupsLayout | src/main/java/de/erethon/dungeonsxl/global/GameSign.java:151-177 | five groups A..E on a two-sign column with a cap of five: the top sign reads full, A, B, C and the sign below reads D, E on its lines 0 and 1 |
| SignRender.OverflowWrapsAround | src/main/java/de/erethon/dungeonsxl/global/GameSign.java:166-168 | an eighth group overwrites line 0 of the same lower sign |
| Creation.ScanFollowsDirection | src/main/java/de/erethon/dungeonsxl/global/GameSign.java:324-404 | each scan loop walks columns along the decoded step and rows downwards from the start sign |
| Creation.SupportIsBehind | src/main/java/de/erethon/dungeonsxl/global/GameSign.java:324-404 | the support block is z+1, z-1, x+1, x-1 for codes 2..5: the step turned toward the wall |
| Creation.Scan | src/main/java/de/erethon/dungeonsxl/global/GameSign.java:321-404 | succeeds iff every cell of the maxGames × verticalSigns rectangle is AIR or a wall sign and its support is not AIR; on success returns exactly the rectangle's cells |
| Creation.Commit | src/main/java/de/erethon/dungeonsxl/global/GameSign.java:406-408 | every scanned cell becomes a wall sign with the start sign's data byte; no other block changes |
| Creation.TryToCreate | src/main/java/de/erethon/dungeonsxl/global/GameSign.java:314-413 | null with nothing changed iff the scan fails; otherwise all rectangle cells are wall signs with the start data byte, no block outside changes material or data, the constructed sign is registered, no block outside the rectangle and off every column's x/z line changes at all (text included), and, when the data byte gives a unit step, every column top shows a new-game prompt; on success the world is exactly the committed rectangle with the new sign rendered over it |
| Creation.CommitIsCommitted | src/main/java/de/erethon/dungeonsxl/global/GameSign.java:406-408 | the commit over the scanned cells yields exactly the world with every rectangle cell turned into a wall sign with the start byte |
| Creation.CreatedWorld | src/main/java/de/erethon/dungeonsxl/global/GameSign.java:72 | rendering a fresh sign over the committed rectangle leaves wall signs with the start byte in every cell, changes no material or data outside, changes nothing off the rectangle and the column lines, and with a unit step shows the new-game prompt on every sign top |
| Interaction.ClickedColumn | src/main/java/de/erethon/dungeonsxl/global/GameSign.java:450-456 | the column is the absolute difference of x and anchor.x when the step runs along x, else of z and anchor.z |
| Interaction.ClickedColumnInRange | src/main/java/de/erethon/dungeonsxl/global/GameSign.java:446-456 | for a unit step and a click inside the box, the column exists and its top has the clicked x and z |
| Interaction.PlayerInteract | src/main/java/de/erethon/dungeonsxl/global/GameSign.java:416-476 | false iff the block lookup finds no sign; the instance ceiling, group, captain and already-in-game checks apply in that order, each returning true with its message and no change; every outcome keeps the state valid and the slot array lengths |
| Interaction.InteractCreates | src/main/java/de/erethon/dungeonsxl/global/GameSign.java:464-469 | a new-game header stores a new game holding just the player's group in the clicked column, binds the group to the sign's dungeon (no other group and no membership changes) and leaves the world as rendering the updated sign over the old one |
| Interaction.InteractJoins | src/main/java/de/erethon/dungeonsxl/global/GameSign.java:470-473 | a join header appends the player's group to the column's game; over an empty slot it throws a null dereference; groups and membership are unchanged, and a completed join leaves the world as rendering the updated sign over the old one |
| Interaction.InteractOtherHeader | src/main/java/de/erethon/dungeonsxl/global/GameSign.java:458-475 | any other header, or no sign at the column top, returns true with nothing changed |
| Interaction.NewGameThenJoinHeader | src/main/java/de/erethon/dungeonsxl/global/GameSign.java:464-468 | for a player whose group is not playing, on a sign whose data byte gives a unit step, clicked in the sign's own world: after a completed new-game click the column header reads join game if the sign allows more than one group, else full |

## Left out

- `GameSign.save`: writes the six keys x, y, z, dungeon, maxGames and maxGroupsPerGame to an opaque configuration file; no logic to state.
- `DeleteCommand` and `ImportCommand`: file-system copying and deletion, asynchronous tasks, chat components and world saving.
- The `LocationSign` constructor: floating-point coordinates and Bukkit `Location`/facing decoding; only `letterToYaw` is modelled.
- Getters and setters of `GameSign`.
- The id comes from `generateId` on the `GlobalProtections` registry, and registration is the `GlobalProtection` super-constructor call; neither is part of this model. The id is a parameter, and the registry is a sequence standing for its iteration order, whatever that order is.
- `LegacyUtil.isSign` and `instanceof Sign` are the `IsSign` test on materials (wall sign or sign post). `BlockUtil.getAttachedBlock` is the function parameter `attached`.
- `Game` and `DGroup` internals: a game is its group list, and a group is name, captain, playing flag and dungeon. `new Game(group)` is modelled as a fresh reference to a game holding that group. `Game.getByDGroup` is "the group is in some live game".
- `MessageUtil.sendMessage` is the `notice` field of the outcome. Message texts are distinct placeholder strings.
- The server-wide running instance count and configured maximum are parameters.
- Geometry.VerticalSigns: exact integer ceiling; DungeonsXL's float conversion rounds for |1 + maxGroupsPerGame| above 2^24, which is not modelled.
- Java 32-bit overflow of coordinates and of `1 + maxGroupsPerGame` is not modelled (integers are unbounded).
- A negative `maxGames` (the array allocation throws) is excluded by the type `nat`.
- Creation.Commit: keeps the text of converted cells; what the server does to sign text when `setTypeIdAndData` is applied with physics is not modelled.
- Geometry.ComputeFootprint: the second loop is taken over the set of column tops; the order in which a hash set is walked does not affect the union.
- The `CopyOnWriteArrayList` of the scan is a plain sequence; it carries no concurrency here.

=== FILE: blocks.dfy ===
/**
 * The block world the game signs live in: a finite map from coordinates to
 * block records. A coordinate missing from the map is an AIR block.
 */
module Blocks {

  type WorldName = string

  /** A block coordinate, including the world it belongs to. */
  datatype Pos = Pos(world: WorldName, x: int, y: int, z: int)

  /** The block `dx, dy, dz` away from `p`, in the same world (Bukkit's getRelative). */
  function Relative(p: Pos, dx: int, dy: int, dz: int): Pos
  {
    Pos(p.world, p.x + dx, p.y + dy, p.z + dz)
  }

  /** The block materials the core distinguishes; every other material is `Solid`. */
  datatype Material = Air | WallSign | SignPost | Solid(id: nat)

  /** Whether a block holds sign state (a wall sign or a standing sign post). */
  predicate IsSign(m: Material)
  {
    m == WallSign || m == SignPost
  }

  /** The legacy data byte of a block: a Java `byte`. */
  type Byte = b: int | -128 <= b < 128

  /** The four text lines of a sign. */
  type Lines = s: seq<string> | |s| == 4 witness ["", "", "", ""]

  const BlankLines: Lines := ["", "", "", ""]

  datatype Block = Block(mat: Material, data: Byte, lines: Lines)

  const AirBlock: Block := Block(Air, 0, BlankLines)

  type World = map<Pos, Block>

  /** The block at `p`: the stored record, or AIR when nothing is stored there. */
  function At(w: World, p: Pos): (b: Block)
    ensures p !in w ==> b == AirBlock
    ensures b.mat != Air ==> p in w
  {
    if p in w then w[p] else AirBlock
  }

}

=== FILE: creation.dfy ===
/**
 * Two-phase creation of a game sign from a start sign: scan the whole
 * `maxGames` by `verticalSigns` rectangle, and only when every cell passes
 * convert every cell into a wall sign, then construct and register the sign.
 */
module Creation {

  import opened Maybe
  import opened Blocks
  import opened Direction
  import opened Geometry
  import opened Parties
  import opened GameSigns
  import opened SignRender

  /**
   * The block a scanned cell must hang on, for each wall face code: z+1,
   * z-1, x+1 or x-1 for codes 2, 3, 4 and 5. Other codes scan nothing.
   */
  function Support(p: Pos, code: int): Pos
  {
    match code
    case 2 => Relative(p, 0, 0, 1)
    case 3 => Relative(p, 0, 0, -1)
    case 4 => Relative(p, 1, 0, 0)
    case 5 => Relative(p, -1, 0, 0)
    case _ => p
  }

  /**
   * The cell `r` rows below and `c` columns along from the start sign `a`,
   * as each of the four scan loops walks it.
   */
  function ScanCell(a: Pos, code: int, r: int, c: int): Pos
  {
    match code
    case 2 => Pos(a.world, a.x - c, a.y - r, a.z)
    case 3 => Pos(a.world, a.x + c, a.y - r, a.z)
    case 4 => Pos(a.world, a.x, a.y - r, a.z + c)
    case 5 => Pos(a.world, a.x, a.y - r, a.z - c)
    case _ => a
  }

  /** The scan walks the columns along the decoded step and the rows downwards: the sign grid. */
  lemma ScanFollowsDirection(a: Pos, code: int, r: int, c: int)
    requires KnownCode(code)
    ensures ScanCell(a, code, r, c) == Down(Column(a, GetDirection(code), c), r)
  {
  }

  /** The support block lies behind the cell: the step turned a quarter to the wall. */
  lemma SupportIsBehind(p: Pos, code: int)
    requires KnownCode(code)
    ensures Support(p, code) == Relative(p, GetDirection(code).dz, 0, -GetDirection(code).dx)
    ensures Support(p, code) != p
  {
  }

  /** A cell passes when it is AIR or already a wall sign, and its support block is not AIR. */
  predicate CellOk(w: World, p: Pos, code: int)
  {
    (At(w, p).mat == Air || At(w, p).mat == WallSign) && At(w, Support(p, code)).mat != Air
  }

  /** Every cell of the rectangle passes (an unknown code scans nothing, so it passes). */
  predicate ScanPasses(w: World, a: Pos, code: int, m: int, vs: int)
  {
    KnownCode(code) ==> forall r, c | 0 <= r < vs && 0 <= c < m :: CellOk(w, ScanCell(a, code, r, c), code)
  }

  /** Whether `p` lies in the scanned rectangle, without reference to the scan order. */
  predicate InRect(a: Pos, code: int, m: int, vs: int, p: Pos)
  {
    && KnownCode(code) && p.world == a.world && a.y - vs < p.y <= a.y
    && match code
       case 2 => p.z == a.z && a.x - m < p.x <= a.x
       case 3 => p.z == a.z && a.x <= p.x < a.x + m
       case 4 => p.x == a.x && a.z <= p.z < a.z + m
       case _ => p.x == a.x && a.z - m < p.z <= a.z
  }

  /**
   * The scan phase: rows from the start sign's y downwards, columns outwards
   * along the step, stopping at the first cell that fails. On success the
   * returned cells are exactly the cells of the rectangle.
   */
  method Scan(w: World, a: Pos, code: int, m: nat, vs: int) returns (cells: seq<Pos>, ok: bool)
    ensures ok <==> ScanPasses(w, a, code, m, vs)
    ensures ok ==> forall k | 0 <= k < |cells| :: InRect(a, code, m, vs, cells[k])
    ensures ok ==> forall r, c | 0 <= r < vs && 0 <= c < m && KnownCode(code) :: ScanCell(a, code, r, c) in cells
    ensures ok ==> forall k | 0 <= k < |cells| :: cells[k] in RectCells(a, code, m, vs)
  {
    cells := [];
    if !KnownCode(code) {
      return [], true;
    }
    var r := 0;
    while r < vs
      invariant 0 <= r && (r <= vs || r == 0)
      invariant forall r', c | 0 <= r' < r && 0 <= c < m :: CellOk(w, ScanCell(a, code, r', c), code)
      invariant forall r', c | 0 <= r' < r && 0 <= c < m :: ScanCell(a, code, r', c) in cells
      invariant forall k | 0 <= k < |cells| :: InRect(a, code, m, vs, cells[k])
      invariant forall k | 0 <= k < |cells| :: cells[k] in RectCells(a, code, m, vs)
    {
      var c := 0;
      while c < m
        invariant 0 <= c <= m
        invariant forall r', c' | 0 <= r' < r && 0 <= c' < m :: CellOk(w, ScanCell(a, code, r', c'), code)
        invariant forall c' | 0 <= c' < c :: CellOk(w, ScanCell(a, code, r, c'), code)
        invariant forall r', c' | 0 <= r' < r && 0 <= c' < m :: ScanCell(a, code, r', c') in cells
        invariant forall c' | 0 <= c' < c :: ScanCell(a, code, r, c') in cells
        invariant forall k | 0 <= k < |cells| :: InRect(a, code, m, vs, cells[k])
        invariant forall k | 0 <= k < |cells| :: cells[k] in RectCells(a, code, m, vs)
      {
        var p := ScanCell(a, code, r, c);
        if !CellOk(w, p, code) {
          return cells, false;
        }
        cells := cells + [p];
        c := c + 1;
      }
      r := r + 1;
    }
    ok := true;
  }

  /** A block turned into a wall sign with data byte `data` (its text kept). */
  function Converted(b: Block, data: Byte): Block
  {
    Block(WallSign, data, b.lines)
  }

  /** The cells of the scanned rectangle, as the scan visits them (none for an unknown code). */
  function RectCells(a: Pos, code: int, m: int, vs: int): set<Pos>
  {
    set r, c | KnownCode(code) && 0 <= r < vs && 0 <= c < m :: ScanCell(a, code, r, c)
  }

  /** The world after the commit phase: every rectangle cell a wall sign with data byte `data`. */
  function Committed(w: World, a: Pos, code: int, m: int, vs: int, data: Byte): World
  {
    map p | p in w.Keys + RectCells(a, code, m, vs) ::
      if p in RectCells(a, code, m, vs) then Converted(At(w, p), data) else w[p]
  }

  /** The commit phase: every scanned cell becomes a wall sign with the start sign's data byte; nothing else changes. */
  method Commit(w: World, cells: seq<Pos>, data: Byte) returns (w': World)
    ensures forall k | 0 <= k < |cells| :: At(w', cells[k]) == Converted(At(w, cells[k]), data)
    ensures forall p | p !in cells :: At(w', p) == At(w, p)
    ensures w'.Keys == w.Keys + set k | 0 <= k < |cells| :: cells[k]
  {
    w' := w;
    var i := 0;
    while i < |cells|
      invariant 0 <= i <= |cells|
      invariant forall k | 0 <= k < i :: At(w', cells[k]) == Converted(At(w, cells[k]), data)
      invariant forall p | p !in cells[..i] :: At(w', p) == At(w, p)
      invariant w'.Keys == w.Keys + set k | 0 <= k < i :: cells[k]
    {
      w' := w'[cells[i] := Converted(At(w', cells[i]), data)];
      assert cells[..i + 1] == cells[..i] + [cells[i]];
      i := i + 1;
    }
    assert cells[..i] == cells;
  }

  /** The commit over the scanned cells produces exactly the committed world. */
  lemma CommitIsCommitted(w: World, a: Pos, data: Byte, m: int, vs: int, cells: seq<Pos>, w': World)
    requires forall k | 0 <= k < |cells| :: cells[k] in RectCells(a, data, m, vs)
    requires forall r, c | 0 <= r < vs && 0 <= c < m && KnownCode(data) :: ScanCell(a, data, r, c) in cells
    requires forall k | 0 <= k < |cells| :: At(w', cells[k]) == Converted(At(w, cells[k]), data)
    requires forall p | p !in cells :: At(w', p) == At(w, p)
    requires w'.Keys == w.Keys + set k | 0 <= k < |cells| :: cells[k]
    ensures w' == Committed(w, a, data, m, vs, data)
  {
    var rect := RectCells(a, data, m, vs);
    assert (set k | 0 <= k < |cells| :: cells[k]) == rect;
    var cw := Committed(w, a, data, m, vs, data);
    forall p | p in w'.Keys
      ensures w'[p] == cw[p]
    {
      if p in rect {
        var k :| 0 <= k < |cells| && cells[k] == p;
        assert w'[p] == At(w', cells[k]);
      } else {
        assert p !in cells && p in w.Keys;
        assert w'[p] == At(w', p) == At(w, p) == w[p];
      }
    }
  }

  /** Where the committed world puts a block: a converted cell inside the rectangle, the old block elsewhere. */
  lemma CommittedAt(w: World, a: Pos, code: int, m: int, vs: int, data: Byte, p: Pos)
    ensures At(Committed(w, a, code, m, vs, data), p) ==
              if p in RectCells(a, code, m, vs) then Converted(At(w, p), data) else At(w, p)
  {
  }

  /**
   * The world a successful creation leaves: the committed rectangle with the
   * new sign rendered over it. Every rectangle cell is a wall sign with the
   * start byte, nothing else changes material or data, nothing off the
   * rectangle and the column lines changes at all, and for a unit step every
   * column top that is a sign shows the new-game prompt.
   */
  lemma CreatedWorld(w: World, h: Heap, start: Pos, m: nat, vs: int, s: GameSign)
    requires s.anchor == start && |s.games| == m && forall j | 0 <= j < |s.games| :: s.games[j].None?
    requires s.dir == GetDirection(At(w, start).data)
    ensures SlotsOk(s, h)
    ensures var data := At(w, start).data;
            var rw := Render(s, h, Committed(w, start, data, m, vs, data)).world;
            && (forall r, c | 0 <= r < vs && 0 <= c < m && KnownCode(data) ::
                  At(rw, ScanCell(start, data, r, c)).mat == WallSign && At(rw, ScanCell(start, data, r, c)).data == data)
            && (forall p | !InRect(start, data, m, vs, p) :: At(rw, p).mat == At(w, p).mat && At(rw, p).data == At(w, p).data)
            && (forall p | !InRect(start, data, m, vs, p) &&
                           (p.world != start.world ||
                            forall i | 0 <= i < m :: p.x != Column(start, s.dir, i).x || p.z != Column(start, s.dir, i).z) ::
                  At(rw, p) == At(w, p))
            && (IsUnit(s.dir) ==>
                  forall i | 0 <= i < m && IsSign(At(rw, Column(start, s.dir, i)).mat) ::
                    At(rw, Column(start, s.dir, i)).lines == TopLines(NewGameText, []))
  {
    var data := At(w, start).data;
    var wc := Committed(w, start, data, m, vs, data);
    forall p
      ensures At(wc, p) == if p in RectCells(start, data, m, vs) then Converted(At(w, p), data) else At(w, p)
    {
      CommittedAt(w, start, data, m, vs, data, p);
    }
    forall r, c | 0 <= r < vs && 0 <= c < m && KnownCode(data)
      ensures ScanCell(start, data, r, c) in RectCells(start, data, m, vs)
    {
    }
    forall p | p in RectCells(start, data, m, vs)
      ensures InRect(start, data, m, vs, p)
    {
      var r, c :| KnownCode(data) && 0 <= r < vs && 0 <= c < m && p == ScanCell(start, data, r, c);
    }
    RenderEmptyCompletes(s, h, wc, 0);
    RenderPreservesBlocks(s, h, wc, 0);
    RenderFrame(s, h, wc);
    if IsUnit(s.dir) {
      RenderShowsSlots(s, h, wc, 0);
    }
  }

  /**
   * Creation from the start sign at `start`: null (None) with nothing
   * changed when the scan fails; otherwise every rectangle cell converted,
   * the sign constructed (its constructor renders it) and registered.
   */
  method TryToCreate(sys: Sys, start: Pos, mapName: string, maxGames: nat, maxGroupsPerGame: int,
                     id: int, cat: Catalog) returns (created: Option<GameSign>, sys': Sys)
    ensures var code := At(sys.world, start).data;
            created.None? <==> !ScanPasses(sys.world, start, code, maxGames, VerticalSigns(maxGroupsPerGame))
    ensures created.None? ==> sys' == sys
    ensures created.Some? ==> created.value == NewGameSign(id, sys.world, start, cat, mapName, maxGames, maxGroupsPerGame)
    ensures created.Some? ==> sys'.signs == sys.signs + [created.value] && sys'.heap == sys.heap
    ensures created.Some? ==>
              forall r, c | 0 <= r < VerticalSigns(maxGroupsPerGame) && 0 <= c < maxGames && KnownCode(At(sys.world, start).data) ::
                At(sys'.world, ScanCell(start, At(sys.world, start).data, r, c)).mat == WallSign &&
                At(sys'.world, ScanCell(start, At(sys.world, start).data, r, c)).data == At(sys.world, start).data
    ensures created.Some? ==>
              forall p | !InRect(start, At(sys.world, start).data, maxGames, VerticalSigns(maxGroupsPerGame), p) ::
                At(sys'.world, p).mat == At(sys.world, p).mat && At(sys'.world, p).data == At(sys.world, p).data
    ensures created.Some? ==>
              forall p | !InRect(start, At(sys.world, start).data, maxGames, VerticalSigns(maxGroupsPerGame), p) &&
                         (p.world != start.world ||
                          forall i | 0 <= i < maxGames :: p.x != Column(start, created.value.dir, i).x || p.z != Column(start, created.value.dir, i).z) ::
                At(sys'.world, p) == At(sys.world, p)
    ensures created.Some? ==>
              sys'.world == Render(created.value, sys.heap,
                                   Committed(sys.world, start, At(sys.world, start).data, maxGames,
                                             VerticalSigns(maxGroupsPerGame), At(sys.world, start).data)).world
    ensures created.Some? && IsUnit(created.value.dir) ==>
              forall i | 0 <= i < maxGames && IsSign(At(sys'.world, Column(start, created.value.dir, i)).mat) ::
                At(sys'.world, Column(start, created.value.dir, i)).lines == TopLines(NewGameText, [])
    ensures Valid(sys) ==> Valid(sys')
  {
    var data := At(sys.world, start).data;
    var vs := VerticalSigns(maxGroupsPerGame);
    var cells, ok := Scan(sys.world, start, data, maxGames, vs);
    if !ok {
      return None, sys;
    }
    var w1 := Commit(sys.world, cells, data);
    assert w1 == Committed(sys.world, start, data, maxGames, vs, data) by {
      CommitIsCommitted(sys.world, start, data, maxGames, vs, cells, w1);
    }
    var s := NewGameSign(id, sys.world, start, cat, mapName, maxGames, maxGroupsPerGame);
    CreatedWorld(sys.world, sys.heap, start, maxGames, vs, s);
    created := Some(s);
    sys' := Sys(sys.signs + [s], sys.heap, Render(s, sys.heap, w1).world);
    assert SlotsLive(sys.signs, sys.heap) ==> SlotsLive(sys'.signs, sys'.heap);
  }

}

=== FILE: direction.dfy ===
/**
 * Orientation decoding: the legacy wall-sign data byte names the face the
 * sign hangs on, and a game sign's columns run along the matching unit step.
 */
module Direction {

  /** A horizontal step: `dx` along x and `dz` along z. */
  datatype Dir = Dir(dx: int, dz: int)

  /** A step with exactly one non-zero component, and that component is 1 or -1. */
  predicate IsUnit(d: Dir)
  {
    (d.dx == 0 && (d.dz == 1 || d.dz == -1)) || (d.dz == 0 && (d.dx == 1 || d.dx == -1))
  }

  /** The four wall-sign data codes the core understands. */
  predicate KnownCode(data: int)
  {
    2 <= data <= 5
  }

  /**
   * The column step of a wall sign with the given data byte. Codes 2, 3, 4
   * and 5 are the four wall faces; every other byte gives the zero step.
   */
  function GetDirection(data: int): (d: Dir)
    ensures KnownCode(data) <==> IsUnit(d)
    ensures !KnownCode(data) ==> d == Dir(0, 0)
    ensures data == 2 ==> d == Dir(-1, 0)
    ensures data == 3 ==> d == Dir(1, 0)
    ensures data == 4 ==> d == Dir(0, 1)
    ensures data == 5 ==> d == Dir(0, -1)
  {
    match data
    case 2 => Dir(-1, 0)
    case 3 => Dir(1, 0)
    case 4 => Dir(0, 1)
    case 5 => Dir(0, -1)
    case _ => Dir(0, 0)
  }

  /** The data code of the wall face whose column step is `d`, if `d` is a unit step. */
  function CodeOf(d: Dir): (c: int)
    ensures IsUnit(d) <==> KnownCode(c)
  {
    if d == Dir(-1, 0) then 2
    else if d == Dir(1, 0) then 3
    else if d == Dir(0, 1) then 4
    else if d == Dir(0, -1) then 5
    else 0
  }

  /** Decoding a known code and encoding its step again gives the code back. */
  lemma CodeRoundTrip(data: int)
    requires KnownCode(data)
    ensures CodeOf(GetDirection(data)) == data
  {
  }

  /** Every unit step is the decoding of exactly one known code. */
  lemma DirectionRoundTrip(d: Dir)
    requires IsUnit(d)
    ensures KnownCode(CodeOf(d)) && GetDirection(CodeOf(d)) == d
    ensures forall c | KnownCode(c) && GetDirection(c) == d :: c == CodeOf(d)
  {
  }

  /** Distinct known codes give distinct steps. */
  lemma GetDirectionInjective(a: int, b: int)
    requires KnownCode(a) && KnownCode(b) && a != b
    ensures GetDirection(a) != GetDirection(b)
  {
  }

}

=== FILE: game_signs.dfy ===
/**
 * The game-sign entity: an array of signs, one column per game slot, and the
 * registry lookups by block and by game.
 */
module GameSigns {

  import opened Maybe
  import opened Blocks
  import opened Direction
  import opened Geometry
  import opened Parties

  /**
   * A game sign. `games` is the fixed-length slot array (one optional game
   * per column), `dir` and `verticalSigns` are derived once at construction,
   * and `blocks` is the memoised footprint (None until first asked for).
   */
  datatype GameSign = GameSign(
    id: int,
    anchor: Pos,
    games: seq<Option<GameId>>,
    dungeon: Option<Dungeon>,
    maxGroupsPerGame: int,
    dir: Dir,
    verticalSigns: int,
    blocks: Option<set<Pos>>)

  /** The whole mutable state the core works on: the registered signs in registration order, the live objects and the world. */
  datatype Sys = Sys(signs: seq<GameSign>, heap: Heap, world: World)

  /** Every slot of every registered sign refers to a live game. */
  predicate SlotsLive(signs: seq<GameSign>, h: Heap)
  {
    forall i, j | 0 <= i < |signs| && 0 <= j < |signs[i].games| && signs[i].games[j].Some? ::
      signs[i].games[j].value in h.games
  }

  predicate Valid(sys: Sys)
  {
    HeapOk(sys.heap) && SlotsLive(sys.signs, sys.heap)
  }

  /**
   * The field set-up of the constructor: `maxGames` empty slots, the dungeon
   * resolved from `identifier`, the row count, and the step decoded from the
   * data byte the start sign has in `w`.
   */
  function NewGameSign(id: int, w: World, start: Pos, cat: Catalog, identifier: string,
                       maxGames: nat, maxGroupsPerGame: int): (s: GameSign)
    ensures s.anchor == start && s.id == id && s.maxGroupsPerGame == maxGroupsPerGame
    ensures |s.games| == maxGames && forall j | 0 <= j < |s.games| :: s.games[j].None?
    ensures s.dungeon == ResolveDungeon(cat, identifier)
    ensures 4 * (s.verticalSigns - 1) < 1 + maxGroupsPerGame <= 4 * s.verticalSigns
    ensures s.dir == GetDirection(At(w, start).data)
    ensures IsUnit(s.dir) <==> KnownCode(At(w, start).data)
    ensures !IsUnit(s.dir) ==> s.dir == Dir(0, 0)
    ensures s.blocks.None?
  {
    GameSign(id, start, seq(maxGames, _ => None), ResolveDungeon(cat, identifier), maxGroupsPerGame,
             GetDirection(At(w, start).data), VerticalSigns(maxGroupsPerGame), None)
  }

  /** The bounding-box test of the block lookup for sign `s`. */
  predicate InBoxOf(s: GameSign, p: Pos)
  {
    InBox(s.anchor, s.dir, |s.games|, s.verticalSigns, p)
  }

  /** The index of the first sign at or after `from` whose box holds `p`. */
  function FirstInBox(signs: seq<GameSign>, p: Pos, from: nat): (r: Option<nat>)
    requires from <= |signs|
    ensures r.Some? ==> from <= r.value < |signs| && InBoxOf(signs[r.value], p)
    ensures r.Some? ==> forall j | from <= j < r.value :: !InBoxOf(signs[j], p)
    ensures r.None? ==> forall j | from <= j < |signs| :: !InBoxOf(signs[j], p)
    decreases |signs| - from
  {
    if from == |signs| then None
    else if InBoxOf(signs[from], p) then Some(from)
    else FirstInBox(signs, p, from + 1)
  }

  /**
   * The registered sign protecting block `p`: none when `p` is not a sign,
   * else the first registered sign whose bounding box holds `p`'s coordinates.
   */
  function GetByBlock(signs: seq<GameSign>, w: World, p: Pos): (r: Option<nat>)
    ensures !IsSign(At(w, p).mat) ==> r.None?
    ensures r.Some? ==> r.value < |signs| && InBoxOf(signs[r.value], p)
    ensures r.Some? ==> forall j | 0 <= j < r.value :: !InBoxOf(signs[j], p)
    ensures IsSign(At(w, p).mat) && r.None? ==> forall j | 0 <= j < |signs| :: !InBoxOf(signs[j], p)
  {
    if !IsSign(At(w, p).mat) then None else FirstInBox(signs, p, 0)
  }

  /** The block lookup does not look at the world a coordinate belongs to. */
  lemma GetByBlockIgnoresWorld(signs: seq<GameSign>, w: World, p: Pos, q: Pos)
    requires p.x == q.x && p.y == q.y && p.z == q.z
    requires IsSign(At(w, p).mat) && IsSign(At(w, q).mat)
    ensures GetByBlock(signs, w, p) == GetByBlock(signs, w, q)
  {
    var a := GetByBlock(signs, w, p);
    var b := GetByBlock(signs, w, q);
    if a.Some? && b.Some? {
      assert !(a.value < b.value) && !(b.value < a.value);
    }
  }

  /** The index of the first sign at or after `from` with a slot equal to `game`. */
  function FirstHolding(signs: seq<GameSign>, game: Option<GameId>, from: nat): (r: Option<nat>)
    requires from <= |signs|
    ensures r.Some? ==> from <= r.value < |signs| && game in signs[r.value].games
    ensures r.Some? ==> forall j | from <= j < r.value :: game !in signs[j].games
    ensures r.None? ==> forall j | from <= j < |signs| :: game !in signs[j].games
    decreases |signs| - from
  {
    if from == |signs| then None
    else if game in signs[from].games then Some(from)
    else FirstHolding(signs, game, from + 1)
  }

  /**
   * The first registered sign with a slot equal to `game`, compared by
   * reference (id). A null game (None) matches the first sign with an empty slot.
   */
  function GetByGame(signs: seq<GameSign>, game: Option<GameId>): (r: Option<nat>)
    ensures r.Some? ==> r.value < |signs| && game in signs[r.value].games
    ensures r.Some? ==> forall j | 0 <= j < r.value :: game !in signs[j].games
    ensures r.None? <==> forall j | 0 <= j < |signs| :: game !in signs[j].games
  {
    FirstHolding(signs, game, 0)
  }

  /** Looking up the null game finds the first registered sign that has an empty slot. */
  lemma GetByNullGame(signs: seq<GameSign>)
    ensures var r := GetByGame(signs, None);
            (r.Some? <==> exists j | 0 <= j < |signs| :: exists k | 0 <= k < |signs[j].games| :: signs[j].games[k].None?)
  {
  }

  /**
   * The footprint of `s`, memoised: the cached set when there is one, else
   * the footprint computed now (with the attachment function `attached` of
   * the current world) and stored in the returned sign.
   */
  function GetBlocks(s: GameSign, attached: Pos -> Pos): (r: (GameSign, set<Pos>))
    ensures s.blocks.Some? ==> r.1 == s.blocks.value && r.0 == s
    ensures s.blocks.None? ==> r.1 == Footprint(s.anchor, s.dir, |s.games|, s.verticalSigns, attached)
    ensures r.0 == s.(blocks := Some(r.1))
  {
    match s.blocks
    case Some(b) => (s, b)
    case None => var b := Footprint(s.anchor, s.dir, |s.games|, s.verticalSigns, attached); (s.(blocks := Some(b)), b)
  }

  /** Once computed, the footprint never changes: a later call, in whatever world, returns the same set and sign. */
  lemma GetBlocksMemoised(s: GameSign, a1: Pos -> Pos, a2: Pos -> Pos)
    ensures GetBlocks(GetBlocks(s, a1).0, a2) == GetBlocks(s, a1)
  {
  }

  /** Changing slot occupancy does not change a computed footprint. */
  lemma FootprintIndependentOfSlots(s: GameSign, column: nat, g: Option<GameId>, a: Pos -> Pos)
    requires column < |s.games| && s.blocks.Some?
    ensures GetBlocks(s.(games := s.games[column := g]), a).1 == GetBlocks(s, a).1
  {
  }

}

=== FILE: geometry.dfy ===
/**
 * The geometry of a game-sign array: its row count, the bounding box the
 * block lookup tests, and the protected footprint.
 *
 * An array is anchored at its first (top-left) sign, runs `columns` signs
 * along the step `d`, and hangs `rows` signs down from every column top.
 */
module Geometry {

  import opened Blocks
  import opened Direction

  /**
   * The number of stacked signs per column: one header line plus
   * `maxGroupsPerGame` names, four lines per sign, rounded up.
   */
  function VerticalSigns(maxGroupsPerGame: int): (vs: int)
    ensures 4 * (vs - 1) < 1 + maxGroupsPerGame <= 4 * vs
  {
    -((-(1 + maxGroupsPerGame)) / 4)
  }

  /** The ceiling characterisation pins the row count down uniquely. */
  lemma VerticalSignsUnique(m: int, vs: int)
    requires 4 * (vs - 1) < 1 + m <= 4 * vs
    ensures vs == VerticalSigns(m)
  {
  }

  /** A few sample row counts. */
  lemma VerticalSignsSamples()
    ensures VerticalSigns(0) == 1 && VerticalSigns(2) == 1 && VerticalSigns(3) == 1
    ensures VerticalSigns(4) == 2 && VerticalSigns(7) == 2 && VerticalSigns(11) == 3
  {
  }

  /** A non-negative group cap always needs at least one sign per column. */
  lemma VerticalSignsPositive(m: int)
    requires m >= 0
    ensures VerticalSigns(m) >= 1
  {
  }

  /** The top sign of column `i`: `i` steps from the anchor along `d`. */
  function Column(anchor: Pos, d: Dir, i: int): Pos
  {
    Relative(anchor, i * d.dx, 0, i * d.dz)
  }

  /** The block `k` signs below `p` (`k` may be negative: above). */
  function Down(p: Pos, k: int): Pos
  {
    Relative(p, 0, -k, 0)
  }

  /** The x and z axis test of the block lookup, branch by branch as the lookup writes it. */
  predicate AxisTest(v: int, s1: int, s2: int)
  {
    if s1 > s2 then !(v < s2 || v > s1)
    else if s1 < s2 then !(v > s2 || v < s1)
    else v == s1
  }

  /** The y axis test of the block lookup: it only has the downward and the flat case. */
  predicate HeightTest(v: int, s1: int, s2: int)
  {
    if s1 > s2 then !(v < s2 || v > s1) else v == s1
  }

  /**
   * The bounding-box test of the block lookup for an array anchored at
   * `anchor`. It compares coordinates only: the world is not looked at.
   */
  predicate InBox(anchor: Pos, d: Dir, columns: int, rows: int, p: Pos)
  {
    && AxisTest(p.x, anchor.x, anchor.x + (columns - 1) * d.dx)
    && HeightTest(p.y, anchor.y, anchor.y - rows + 1)
    && AxisTest(p.z, anchor.z, anchor.z + (columns - 1) * d.dz)
  }

  function Min(a: int, b: int): int { if a <= b then a else b }
  function Max(a: int, b: int): int { if a <= b then b else a }

  /** The x/z test is plain inclusive betweenness, in whichever order the bounds come. */
  lemma AxisTestIsBetween(v: int, s1: int, s2: int)
    ensures AxisTest(v, s1, s2) <==> Min(s1, s2) <= v <= Max(s1, s2)
  {
  }

  /** The y test is the range from the anchor down `rows` blocks, or the anchor row alone when `rows <= 1`. */
  lemma HeightTestIsRange(v: int, top: int, rows: int)
    ensures HeightTest(v, top, top - rows + 1) <==> (top - rows + 1 <= v <= top || v == top)
  {
  }

  /**
   * For a unit step and a non-empty array, the bounding box is exactly the
   * grid of sign positions: column 0..columns-1, row 0..rows-1.
   */
  lemma {:induction false} InBoxIsGrid(anchor: Pos, d: Dir, columns: int, rows: int, p: Pos)
    requires IsUnit(d) && columns >= 1 && rows >= 1 && p.world == anchor.world
    ensures InBox(anchor, d, columns, rows, p) <==>
              exists i, k :: 0 <= i < columns && 0 <= k < rows && p == Down(Column(anchor, d, i), k)
  {
    if InBox(anchor, d, columns, rows, p) {
      var k := anchor.y - p.y;
      var i := if d.dx != 0 then (p.x - anchor.x) * d.dx else (p.z - anchor.z) * d.dz;
      assert p == Down(Column(anchor, d, i), k);
    }
  }

  /** Offsets, below the anchor row, that the footprint's vertical loop visits, from `vs - 1` down to this bound. */
  function RowLow(vs: int): int
  {
    Min(-1, vs - 1)
  }

  /** The column tops the footprint's first loop visits: offsets -1 up to `columns - 1`. */
  function ColumnTops(anchor: Pos, d: Dir, columns: nat): set<Pos>
  {
    set i | -1 <= i < columns :: Column(anchor, d, i)
  }

  /** Every block the footprint hangs below (or above) one column top, with its attached block. */
  function Hung(c: Pos, vs: int, attached: Pos -> Pos): set<Pos>
  {
    (set k | RowLow(vs) <= k < vs :: Down(c, k)) + (set k | RowLow(vs) <= k < vs :: attached(Down(c, k)))
  }

  function HungAll(tops: set<Pos>, vs: int, attached: Pos -> Pos): set<Pos>
  {
    (set c, k | c in tops && RowLow(vs) <= k < vs :: Down(c, k))
      + (set c, k | c in tops && RowLow(vs) <= k < vs :: attached(Down(c, k)))
  }

  /**
   * The protected footprint of an array: every column top from offset -1 to
   * `columns - 1`, and below each of them the blocks from one above down to
   * `vs - 1` below, each with the block it is attached to.
   */
  function Footprint(anchor: Pos, d: Dir, columns: nat, vs: int, attached: Pos -> Pos): set<Pos>
  {
    var tops := ColumnTops(anchor, d, columns);
    tops + HungAll(tops, vs, attached)
  }

  lemma HungAllStep(done: set<Pos>, c: Pos, vs: int, attached: Pos -> Pos)
    ensures HungAll(done + {c}, vs, attached) == HungAll(done, vs, attached) + Hung(c, vs, attached)
  {
    var l := HungAll(done + {c}, vs, attached);
    var r := HungAll(done, vs, attached) + Hung(c, vs, attached);
    forall q | q in l ensures q in r {
    }
    forall q | q in r ensures q in l {
      if q in Hung(c, vs, attached) {
        if q in (set k | RowLow(vs) <= k < vs :: Down(c, k)) {
          var k :| RowLow(vs) <= k < vs && q == Down(c, k);
          assert c in done + {c};
        } else {
          var k :| RowLow(vs) <= k < vs && q == attached(Down(c, k));
          assert c in done + {c};
        }
      }
    }
  }

  function TopsFrom(anchor: Pos, d: Dir, i: int, columns: nat): set<Pos>
  {
    set j | i <= j < columns :: Column(anchor, d, j)
  }

  lemma TopsFromStep(anchor: Pos, d: Dir, i: int, columns: nat)
    requires i <= columns
    ensures TopsFrom(anchor, d, i - 1, columns) == TopsFrom(anchor, d, i, columns) + {Column(anchor, d, i - 1)}
  {
  }

  /**
   * The first do-while loop of the footprint computation: it counts `i` down
   * from `columns - 1` and still adds the block for `i = -1` before its test fails.
   */
  method ComputeTops(anchor: Pos, d: Dir, columns: nat) returns (tops: set<Pos>)
    ensures tops == ColumnTops(anchor, d, columns)
  {
    tops := {};
    var i: int := columns;
    while true
      invariant 0 <= i <= columns
      invariant tops == TopsFrom(anchor, d, i, columns)
      decreases i + 1
    {
      TopsFromStep(anchor, d, i, columns);
      i := i - 1;
      tops := tops + {Column(anchor, d, i)};
      if i < 0 {
        break;
      }
    }
  }

  function HungFrom(c: Pos, k: int, vs: int, attached: Pos -> Pos): set<Pos>
  {
    (set j | k <= j < vs :: Down(c, j)) + (set j | k <= j < vs :: attached(Down(c, j)))
  }

  lemma HungFromStep(c: Pos, k: int, vs: int, attached: Pos -> Pos)
    requires k <= vs
    ensures HungFrom(c, k - 1, vs, attached) == HungFrom(c, k, vs, attached) + {Down(c, k - 1), attached(Down(c, k - 1))}
  {
    var a := set j | k - 1 <= j < vs :: Down(c, j);
    var b := set j | k <= j < vs :: Down(c, j);
    assert a == b + {Down(c, k - 1)};
    var a' := set j | k - 1 <= j < vs :: attached(Down(c, j));
    var b' := set j | k <= j < vs :: attached(Down(c, j));
    assert a' == b' + {attached(Down(c, k - 1))};
  }

  /**
   * The second do-while loop for one column top: it counts `k` down from
   * `vs - 1` and still adds offset `-1`, the block above the top, before its
   * test fails; every visited block is added with its attached block.
   */
  method ComputeHung(c: Pos, vs: int, attached: Pos -> Pos) returns (below: set<Pos>)
    ensures below == Hung(c, vs, attached)
  {
    below := {};
    var k := vs;
    while true
      invariant k == vs || 0 <= k < vs
      invariant below == HungFrom(c, k, vs, attached)
      decreases k + 1 - RowLow(vs)
    {
      HungFromStep(c, k, vs, attached);
      k := k - 1;
      below := below + {Down(c, k), attached(Down(c, k))};
      if k < 0 {
        break;
      }
    }
  }

  /**
   * The memoised footprint computation: the column tops first, then, for
   * every top in that set, the blocks hung below it.
   */
  method ComputeFootprint(anchor: Pos, d: Dir, columns: nat, vs: int, attached: Pos -> Pos)
    returns (blocks: set<Pos>)
    ensures blocks == Footprint(anchor, d, columns, vs, attached)
  {
    var tops := ComputeTops(anchor, d, columns);
    var toAdd: set<Pos> := {};
    var rest := tops;
    while rest != {}
      invariant rest <= tops
      invariant toAdd == HungAll(tops - rest, vs, attached)
      decreases rest
    {
      var c :| c in rest;
      HungAllStep(tops - rest, c, vs, attached);
      assert (tops - rest) + {c} == tops - (rest - {c});
      var below := ComputeHung(c, vs, attached);
      toAdd := toAdd + below;
      rest := rest - {c};
    }
    blocks := tops + toAdd;
  }

  /** The footprint covers the whole sign grid and every grid cell's attached block. */
  lemma FootprintCoversGrid(anchor: Pos, d: Dir, columns: nat, vs: int, attached: Pos -> Pos, i: int, k: int)
    requires 0 <= i < columns && 0 <= k < vs
    ensures Down(Column(anchor, d, i), k) in Footprint(anchor, d, columns, vs, attached)
    ensures attached(Down(Column(anchor, d, i), k)) in Footprint(anchor, d, columns, vs, attached)
  {
    var tops := ColumnTops(anchor, d, columns);
    assert Column(anchor, d, i) in tops;
  }

  /**
   * The do-while loops overshoot: the footprint holds the block one step
   * before the anchor and the block just above the anchor, and for a unit
   * step neither lies in the lookup's bounding box.
   */
  lemma FootprintOvershoots(anchor: Pos, d: Dir, columns: nat, vs: int, attached: Pos -> Pos)
    requires IsUnit(d) && columns >= 1 && vs >= 1
    ensures Column(anchor, d, -1) in Footprint(anchor, d, columns, vs, attached)
    ensures !InBox(anchor, d, columns, vs, Column(anchor, d, -1))
    ensures Down(anchor, -1) in Footprint(anchor, d, columns, vs, attached)
    ensures !InBox(anchor, d, columns, vs, Down(anchor, -1))
  {
    var tops := ColumnTops(anchor, d, columns);
    assert Column(anchor, d, -1) in tops;
    assert Column(anchor, d, 0) in tops;
    assert Column(anchor, d, 0) == anchor;
    assert Down(Column(anchor, d, 0), -1) in HungAll(tops, vs, attached);
  }

}

=== FILE: interaction.dfy ===
/**
 * A player's click on a game sign: eligibility checks in a fixed order, the
 * clicked column, and a new or joined game depending on the header text.
 */
module Interaction {

  import opened Maybe
  import opened Blocks
  import opened Direction
  import opened Geometry
  import opened Parties
  import opened GameSigns
  import opened SignRender

  /** The exceptions a click can raise in DungeonsXL. */
  datatype Exception = IndexOutOfBounds | NullPointer | ClassCast

  /**
   * The end of a click: a normal return with the boolean result, the message
   * sent to the player (if any) and the new state; or an exception, with the
   * state as left where it was raised.
   */
  datatype Outcome =
    | Returned(handled: bool, notice: Option<Notice>, sys: Sys)
    | Threw(exc: Exception, sys: Sys)

  /** The column a click at `p` picks: its distance from the anchor along the axis the step runs on. */
  function ClickedColumn(s: GameSign, p: Pos): (col: nat)
    ensures s.dir.dx != 0 ==> col == p.x - s.anchor.x || col == s.anchor.x - p.x
    ensures s.dir.dx == 0 ==> col == p.z - s.anchor.z || col == s.anchor.z - p.z
  {
    if s.dir.dx != 0 then Abs(p.x - s.anchor.x) else Abs(p.z - s.anchor.z)
  }

  function Abs(v: int): nat { if v < 0 then -v else v }

  /** For a non-empty sign with a unit step, a click inside the lookup box picks an existing column, and the clicked block is that column's cell. */
  lemma ClickedColumnInRange(s: GameSign, p: Pos)
    requires IsUnit(s.dir) && |s.games| >= 1 && InBoxOf(s, p)
    ensures ClickedColumn(s, p) < |s.games|
    ensures Column(s.anchor, s.dir, ClickedColumn(s, p)).x == p.x && Column(s.anchor, s.dir, ClickedColumn(s, p)).z == p.z
  {
  }

  /** Re-render sign `idx` after a change of its slots or of the heap. */
  function Rerender(sys: Sys, idx: nat): (r: Outcome)
    requires idx < |sys.signs| && SlotsOk(sys.signs[idx], sys.heap)
    ensures r.sys.signs == sys.signs && r.sys.heap == sys.heap
    ensures r.Returned? ==> r.handled && r.notice.None?
    ensures r.Threw? ==> r.exc == ClassCast
  {
    match Render(sys.signs[idx], sys.heap, sys.world)
    case Done(w) => Returned(true, None, sys.(world := w))
    case CastFailed(w) => Threw(ClassCast, sys.(world := w))
  }

  lemma ValidSlotsOk(sys: Sys, idx: nat)
    requires Valid(sys) && idx < |sys.signs|
    ensures SlotsOk(sys.signs[idx], sys.heap)
  {
    var s := sys.signs[idx];
    forall j | 0 <= j < |s.games|
      ensures SlotOk(sys.heap, s.games[j])
    {
      if s.games[j].Some? {
        assert s.games[j].value in sys.heap.games;
      }
    }
  }

  /**
   * The click of `player` on block `p`. `instances` and `maxInstances` are
   * the running game-world count and its configured ceiling; `newGame` is the
   * reference a newly allocated game gets.
   */
  function PlayerInteract(sys: Sys, p: Pos, player: PlayerId, instances: int, maxInstances: int, newGame: GameId): (r: Outcome)
    requires Valid(sys) && newGame !in sys.heap.games
    ensures GetByBlock(sys.signs, sys.world, p).None? <==> r == Returned(false, None, sys)
    ensures r.Returned? && r.notice.Some? ==> r.handled && r.sys == sys
    ensures GetByBlock(sys.signs, sys.world, p).Some? && instances >= maxInstances ==>
              r == Returned(true, Some(TooManyInstances), sys)
    ensures GetByBlock(sys.signs, sys.world, p).Some? && instances < maxInstances && player !in sys.heap.groupOf ==>
              r == Returned(true, Some(JoinGroup), sys)
    ensures GetByBlock(sys.signs, sys.world, p).Some? && instances < maxInstances && player in sys.heap.groupOf &&
            sys.heap.groups[sys.heap.groupOf[player]].captain != player ==>
              r == Returned(true, Some(NotCaptain), sys)
    ensures GetByBlock(sys.signs, sys.world, p).Some? && instances < maxInstances && player in sys.heap.groupOf &&
            sys.heap.groups[sys.heap.groupOf[player]].captain == player && InSomeGame(sys.heap, sys.heap.groupOf[player]) ==>
              r == Returned(true, Some(LeaveGame), sys)
    ensures r.Returned? && r.notice.None? && r.sys != sys ==>
              GetByBlock(sys.signs, sys.world, p).Some? && instances < maxInstances && player in sys.heap.groupOf &&
              sys.heap.groups[sys.heap.groupOf[player]].captain == player && !InSomeGame(sys.heap, sys.heap.groupOf[player])
    ensures |r.sys.signs| == |sys.signs|
    ensures forall i | 0 <= i < |sys.signs| :: |r.sys.signs[i].games| == |sys.signs[i].games|
    ensures Valid(r.sys)
  {
    match GetByBlock(sys.signs, sys.world, p)
    case None => Returned(false, None, sys)
    case Some(idx) =>
      var s := sys.signs[idx];
      var h := sys.heap;
      if instances >= maxInstances then Returned(true, Some(TooManyInstances), sys)
      else if player !in h.groupOf then Returned(true, Some(JoinGroup), sys)
      else
        var g := h.groupOf[player];
        if h.groups[g].captain != player then Returned(true, Some(NotCaptain), sys)
        else if InSomeGame(h, g) then Returned(true, Some(LeaveGame), sys)
        else
          var top := Pos(p.world, p.x, s.anchor.y, p.z);
          var column := ClickedColumn(s, p);
          if !IsSign(At(sys.world, top).mat) then Returned(true, None, sys)
          else
            var header := At(sys.world, top).lines[0];
            if header == NewGameText then
              var h1 := h.(games := h.games[newGame := Game([g])]);
              var h2 := h1.(groups := h1.groups[g := h1.groups[g].(dungeon := s.dungeon)]);
              assert HeapOk(h2);
              assert SlotsLive(sys.signs, h2);
              if column >= |s.games| then Threw(IndexOutOfBounds, sys.(heap := h2))
              else
                var s' := s.(games := s.games[column := Some(newGame)]);
                var sys' := Sys(sys.signs[idx := s'], h2, sys.world);
                assert SlotsLive(sys'.signs, h2);
                ValidSlotsOk(sys', idx);
                Rerender(sys', idx)
            else if header == JoinGameText then
              if column >= |s.games| then Threw(IndexOutOfBounds, sys)
              else if s.games[column].None? then Threw(NullPointer, sys)
              else
                var id := s.games[column].value;
                var h' := h.(games := h.games[id := Game(h.games[id].groups + [g])]);
                var sys' := sys.(heap := h');
                assert Valid(sys');
                ValidSlotsOk(sys', idx);
                Rerender(sys', idx)
            else Returned(true, None, sys)
  }

  /** The click resolved to a sign, and the clicking captain's group passes every check. */
  predicate Eligible(sys: Sys, p: Pos, player: PlayerId, instances: int, maxInstances: int)
    requires Valid(sys)
  {
    && GetByBlock(sys.signs, sys.world, p).Some?
    && instances < maxInstances
    && player in sys.heap.groupOf
    && sys.heap.groups[sys.heap.groupOf[player]].captain == player
    && !InSomeGame(sys.heap, sys.heap.groupOf[player])
  }

  /** The top sign of the clicked column: the clicked block lifted to the anchor's height. */
  function ClickedTop(sys: Sys, p: Pos): Pos
    requires GetByBlock(sys.signs, sys.world, p).Some?
  {
    Pos(p.world, p.x, sys.signs[GetByBlock(sys.signs, sys.world, p).value].anchor.y, p.z)
  }

  /**
   * A new-game header: a game holding just the player's group is stored in
   * the clicked column, the group is bound to the sign's dungeon, nothing
   * else in the slots changes, and the sign is rendered again.
   */
  lemma InteractCreates(sys: Sys, p: Pos, player: PlayerId, instances: int, maxInstances: int, newGame: GameId)
    requires Valid(sys) && newGame !in sys.heap.games
    requires Eligible(sys, p, player, instances, maxInstances)
    requires IsSign(At(sys.world, ClickedTop(sys, p)).mat)
    requires At(sys.world, ClickedTop(sys, p)).lines[0] == NewGameText
    ensures var idx := GetByBlock(sys.signs, sys.world, p).value;
            var s := sys.signs[idx];
            var g := sys.heap.groupOf[player];
            var r := PlayerInteract(sys, p, player, instances, maxInstances, newGame);
            && r.sys.heap.games == sys.heap.games[newGame := Game([g])]
            && r.sys.heap.groups == sys.heap.groups[g := sys.heap.groups[g].(dungeon := s.dungeon)]
            && r.sys.heap.groupOf == sys.heap.groupOf
            && (ClickedColumn(s, p) < |s.games| ==>
                  && r.sys.signs == sys.signs[idx := s.(games := s.games[ClickedColumn(s, p) := Some(newGame)])]
                  && (r.Returned? ==> r.handled && r.notice.None?)
                  && (r.Returned? ==> r.sys.world == Render(r.sys.signs[idx], r.sys.heap, sys.world).world)
                  && (r.Threw? ==> r.exc == ClassCast))
            && (ClickedColumn(s, p) >= |s.games| ==> r.Threw? && r.exc == IndexOutOfBounds && r.sys.signs == sys.signs)
  {
  }

  /**
   * A join header over an occupied column appends the player's group to that
   * column's game; no slot changes. Over an empty column DungeonsXL
   * dereferences null.
   */
  lemma InteractJoins(sys: Sys, p: Pos, player: PlayerId, instances: int, maxInstances: int, newGame: GameId)
    requires Valid(sys) && newGame !in sys.heap.games
    requires Eligible(sys, p, player, instances, maxInstances)
    requires IsSign(At(sys.world, ClickedTop(sys, p)).mat)
    requires At(sys.world, ClickedTop(sys, p)).lines[0] == JoinGameText
    ensures var idx := GetByBlock(sys.signs, sys.world, p).value;
            var s := sys.signs[idx];
            var col := ClickedColumn(s, p);
            var r := PlayerInteract(sys, p, player, instances, maxInstances, newGame);
            && r.sys.signs == sys.signs
            && (col < |s.games| && s.games[col].Some? ==>
                  var id := s.games[col].value;
                  r.sys.heap.games == sys.heap.games[id := Game(sys.heap.games[id].groups + [sys.heap.groupOf[player]])]
                  && r.sys.heap.groups == sys.heap.groups
                  && r.sys.heap.groupOf == sys.heap.groupOf
                  && (r.Returned? ==> r.handled && r.notice.None? &&
                                      r.sys.world == Render(r.sys.signs[idx], r.sys.heap, sys.world).world))
            && (col < |s.games| && s.games[col].None? ==> r == Threw(NullPointer, sys))
            && (col >= |s.games| ==> r == Threw(IndexOutOfBounds, sys))
  {
  }

  /** Any other header, or no sign at the top of the clicked column, absorbs the click: handled, nothing changes. */
  lemma InteractOtherHeader(sys: Sys, p: Pos, player: PlayerId, instances: int, maxInstances: int, newGame: GameId)
    requires Valid(sys) && newGame !in sys.heap.games
    requires Eligible(sys, p, player, instances, maxInstances)
    requires !IsSign(At(sys.world, ClickedTop(sys, p)).mat) ||
             (At(sys.world, ClickedTop(sys, p)).lines[0] != NewGameText && At(sys.world, ClickedTop(sys, p)).lines[0] != JoinGameText)
    ensures PlayerInteract(sys, p, player, instances, maxInstances, newGame) == Returned(true, None, sys)
  {
  }

  /**
   * After a completed new-game click in the sign's own world (unit step,
   * top sign present), the clicked column's header reads "join game" when
   * the sign allows more than one group, and "full" otherwise.
   */
  lemma NewGameThenJoinHeader(sys: Sys, p: Pos, player: PlayerId, instances: int, maxInstances: int, newGame: GameId)
    requires Valid(sys) && newGame !in sys.heap.games
    requires Eligible(sys, p, player, instances, maxInstances)
    requires IsSign(At(sys.world, ClickedTop(sys, p)).mat)
    requires At(sys.world, ClickedTop(sys, p)).lines[0] == NewGameText
    requires var s := sys.signs[GetByBlock(sys.signs, sys.world, p).value];
             IsUnit(s.dir) && p.world == s.anchor.world
    requires !sys.heap.groups[sys.heap.groupOf[player]].playing
    requires PlayerInteract(sys, p, player, instances, maxInstances, newGame).Returned?
    ensures var s := sys.signs[GetByBlock(sys.signs, sys.world, p).value];
            var r := PlayerInteract(sys, p, player, instances, maxInstances, newGame);
            At(r.sys.world, ClickedTop(sys, p)).lines[0] == (if 1 < s.maxGroupsPerGame then JoinGameText else FullText)
  {
    var idx := GetByBlock(sys.signs, sys.world, p).value;
    var s := sys.signs[idx];
    var g := sys.heap.groupOf[player];
    InteractCreates(sys, p, player, instances, maxInstances, newGame);
    var r := PlayerInteract(sys, p, player, instances, maxInstances, newGame);
    var col := ClickedColumn(s, p);
    assert |s.games| >= 1;
    ClickedColumnInRange(s, p);
    var s' := r.sys.signs[idx];
    assert s' == s.(games := s.games[col := Some(newGame)]);
    var h2 := r.sys.heap;
    var w := sys.world;
    var top := ClickedTop(sys, p);
    assert top == Column(s.anchor, s.dir, col);
    ValidSlotsOk(r.sys, idx);
    assert Render(s', h2, w).Done?;
    assert r.sys.world == Render(s', h2, w).world;
    RenderShowsSlots(s', h2, w, 0);
    assert SlotGroups(h2, s'.games[col]) == [g];
  }
}

=== FILE: location_sign.dfy ===
/** The compass-letter to yaw conversion used by location signs. */
module LocationSign {

  /** The compass letters, in both cases, that name a yaw. */
  predicate IsCompassLetter(c: char)
  {
    c in {'S', 's', 'W', 'w', 'N', 'n', 'E', 'e'}
  }

  /** The upper-case form of a compass letter; other characters are returned as they are. */
  function CompassUpper(c: char): char
  {
    match c
    case 's' => 'S'
    case 'w' => 'W'
    case 'n' => 'N'
    case 'e' => 'E'
    case _ => c
  }

  /**
   * The yaw, in degrees, a location sign faces when its facing letter is `c`:
   * south 0, west 90, north 180, east -90, and -1 for any other character.
   */
  function LetterToYaw(c: char): (yaw: int)
    ensures yaw in {0, 90, 180, -90, -1}
    ensures yaw == -1 <==> !IsCompassLetter(c)
    ensures (c == 'S' || c == 's') <==> yaw == 0
    ensures (c == 'W' || c == 'w') <==> yaw == 90
    ensures (c == 'N' || c == 'n') <==> yaw == 180
    ensures (c == 'E' || c == 'e') <==> yaw == -90
  {
    match c
    case 'S' => 0
    case 's' => 0
    case 'W' => 90
    case 'w' => 90
    case 'N' => 180
    case 'n' => 180
    case 'E' => -90
    case 'e' => -90
    case _ => -1
  }

  /** The upper-case compass letter naming `yaw`, when `yaw` is one of the four compass yaws. */
  function YawToLetter(yaw: int): (c: char)
    ensures yaw in {0, 90, 180, -90} <==> c in {'S', 'W', 'N', 'E'}
  {
    match yaw
    case 0 => 'S'
    case 90 => 'W'
    case 180 => 'N'
    case -90 => 'E'
    case _ => '?'
  }

  /** Upper and lower case of a compass letter give the same yaw. */
  lemma LetterToYawCaseInsensitive(c: char)
    ensures LetterToYaw(CompassUpper(c)) == LetterToYaw(c)
  {
  }

  /** Reading a compass letter's yaw back as a letter gives its upper-case form. */
  lemma LetterRoundTrip(c: char)
    requires IsCompassLetter(c)
    ensures YawToLetter(LetterToYaw(c)) == CompassUpper(c)
  {
  }

  /** Every compass yaw is produced by its letter, so the four letters give four distinct yaws. */
  lemma YawRoundTrip(yaw: int)
    requires yaw in {0, 90, 180, -90}
    ensures LetterToYaw(YawToLetter(yaw)) == yaw
  {
  }

  /** The four upper-case compass letters map to pairwise distinct yaws. */
  lemma CompassYawsDistinct(a: char, b: char)
    requires a in {'S', 'W', 'N', 'E'} && b in {'S', 'W', 'N', 'E'} && a != b
    ensures LetterToYaw(a) != LetterToYaw(b)
  {
  }

}

=== FILE: maybe.dfy ===
/** A value that may be absent: the model's stand-in for a nullable Java reference. */
module Maybe {

  datatype Option<+T> = None | Some(value: T)

}

=== FILE: parties.dfy ===
/**
 * The collaborators the game-sign array talks to, kept opaque: games,
 * groups, dungeons and the message texts. References are ids into a heap.
 */
module Parties {

  import opened Maybe

  type GroupId = nat
  type GameId = nat
  type PlayerId = nat

  /** A dungeon: one registered under a name, or one wrapped around a resource world. */
  datatype Dungeon = Named(name: string) | FromResource(resource: string)

  /** The names the dungeon registry and the resource-world registry know. */
  datatype Catalog = Catalog(dungeons: set<string>, resources: set<string>)

  /** A group: its display name, its captain, whether it is playing, and the dungeon it is bound to. */
  datatype Group = Group(name: string, captain: PlayerId, playing: bool, dungeon: Option<Dungeon>)

  /** A game: the ordered list of the groups in it. */
  datatype Game = Game(groups: seq<GroupId>)

  /** The live objects: groups, games, and the group (if any) each player is in. */
  datatype Heap = Heap(groups: map<GroupId, Group>, games: map<GameId, Game>, groupOf: map<PlayerId, GroupId>)

  /** No dangling reference: every group a player is in and every group of a game exists. */
  predicate HeapOk(h: Heap)
  {
    && (forall p | p in h.groupOf :: h.groupOf[p] in h.groups)
    && (forall id | id in h.games :: forall g | g in h.games[id].groups :: g in h.groups)
  }

  /** Whether group `g` is in some game (the game lookup by group is not null). */
  predicate InSomeGame(h: Heap, g: GroupId)
  {
    exists id | id in h.games :: g in h.games[id].groups
  }

  /**
   * The dungeon a game sign resolves from its identifier: the registered
   * dungeon of that name, else a dungeon wrapped around the resource world of
   * that name, else none.
   */
  function ResolveDungeon(cat: Catalog, identifier: string): (r: Option<Dungeon>)
    ensures r.None? <==> identifier !in cat.dungeons && identifier !in cat.resources
    ensures r.Some? ==> (r.value.Named? <==> identifier in cat.dungeons)
    ensures r.Some? ==> (r.value.Named? && r.value.name == identifier) || (r.value.FromResource? && r.value.resource == identifier)
  {
    if identifier in cat.dungeons then Some(Named(identifier))
    else if identifier in cat.resources then Some(FromResource(identifier))
    else None
  }

  /** Sign headers; the texts are placeholders for localised messages and only need to be distinct. */
  const NewGameText: string := "New game"
  const JoinGameText: string := "Join game"
  const FullText: string := "Full"
  const IsPlayingText: string := "Is playing"

  /** The messages sent to a player whose click is rejected. */
  datatype Notice = TooManyInstances | JoinGroup | NotCaptain | LeaveGame

}

=== FILE: sign_render.dfy ===
/**
 * Rendering: writing the header and the group names of every game slot onto
 * the sign grid.
 */
module SignRender {

  import opened Maybe
  import opened Blocks
  import opened Direction
  import opened Geometry
  import opened Parties
  import opened GameSigns

  /**
   * The world after rendering: `Done` when every column was written, or
   * `CastFailed` when a column's overflow block below the top sign was not a
   * sign (the cast of its state fails), with the world as left at that point.
   */
  datatype Rendered = Done(world: World) | CastFailed(world: World)

  /** The stored blocks of `p`'s column strictly below `p`. */
  function KeysBelow(w: World, p: Pos): set<Pos>
  {
    set q | q in w && q.world == p.world && q.x == p.x && q.z == p.z && q.y < p.y
  }

  lemma KeysBelowShrink(w: World, p: Pos)
    requires IsSign(At(w, Down(p, 1)).mat)
    ensures |KeysBelow(w, Down(p, 1))| < |KeysBelow(w, p)|
  {
    var q := Down(p, 1);
    var a, b := KeysBelow(w, q), KeysBelow(w, p);
    assert q in b - a;
    assert b == a + (b - a);
    assert |b| == |a| + |b - a|;
  }

  /** The number of contiguous signs directly below `p`. */
  function SignRun(w: World, p: Pos): (n: nat)
    ensures forall k | 1 <= k <= n :: IsSign(At(w, Down(p, k)).mat)
    ensures !IsSign(At(w, Down(p, n + 1)).mat)
    decreases |KeysBelow(w, p)|
  {
    var q := Down(p, 1);
    if IsSign(At(w, q).mat) then
      KeysBelowShrink(w, p);
      var m := SignRun(w, q);
      assert forall k | 2 <= k <= m + 1 :: Down(p, k) == Down(q, k - 1);
      assert Down(p, m + 2) == Down(q, m + 1);
      1 + m
    else
      0
  }

  /** Whether `p` is one of the `n` blocks directly below `top`. */
  predicate InRun(top: Pos, n: int, p: Pos)
  {
    p.world == top.world && p.x == top.x && p.z == top.z && top.y - n <= p.y < top.y
  }

  /** The world with the text of the `n` blocks below `top` blanked. */
  function ClearRun(w: World, top: Pos, n: nat): (w': World)
    ensures forall p :: At(w', p).mat == At(w, p).mat && At(w', p).data == At(w, p).data
    ensures forall p | InRun(top, n, p) :: At(w', p).lines == BlankLines
    ensures forall p | !InRun(top, n, p) :: At(w', p) == At(w, p)
  {
    map p | p in w :: if InRun(top, n, p) then w[p].(lines := BlankLines) else w[p]
  }

  /** The world with the sign text at `p` replaced by `ls` (the sign state flushed). */
  function PutLines(w: World, p: Pos, ls: Lines): (w': World)
    ensures forall q :: At(w', q).mat == At(w, q).mat && At(w', q).data == At(w, q).data
    ensures At(w', p).lines == ls
    ensures forall q | q != p :: At(w', q) == At(w, q)
  {
    w[p := At(w, p).(lines := ls)]
  }

  /** The slot refers to nothing, or to a live game whose groups are all live. */
  predicate SlotOk(h: Heap, slot: Option<GameId>)
  {
    slot.Some? ==> slot.value in h.games && forall g | g in h.games[slot.value].groups :: g in h.groups
  }

  predicate SlotsOk(s: GameSign, h: Heap)
  {
    forall j | 0 <= j < |s.games| :: SlotOk(h, s.games[j])
  }

  /** The groups of the game in a slot (none for an empty slot). */
  function SlotGroups(h: Heap, slot: Option<GameId>): seq<GroupId>
    requires SlotOk(h, slot)
  {
    if slot.None? then [] else h.games[slot.value].groups
  }

  /**
   * The header of a slot: a new-game prompt for an empty slot or a game
   * without groups; otherwise "is playing" when the first group plays, else
   * "full" at `maxGroups` groups or more, else "join game".
   */
  function HeaderFor(h: Heap, slot: Option<GameId>, maxGroups: int): (t: string)
    requires SlotOk(h, slot)
    ensures |SlotGroups(h, slot)| == 0 ==> t == NewGameText
    ensures |SlotGroups(h, slot)| > 0 && h.groups[SlotGroups(h, slot)[0]].playing ==> t == IsPlayingText
    ensures |SlotGroups(h, slot)| > 0 && !h.groups[SlotGroups(h, slot)[0]].playing ==>
              (t == FullText <==> |SlotGroups(h, slot)| >= maxGroups)
    ensures |SlotGroups(h, slot)| > 0 && !h.groups[SlotGroups(h, slot)[0]].playing && |SlotGroups(h, slot)| < maxGroups ==>
              t == JoinGameText
    ensures t in {NewGameText, IsPlayingText, FullText, JoinGameText}
  {
    var gs := SlotGroups(h, slot);
    if |gs| == 0 then NewGameText
    else if h.groups[gs[0]].playing then IsPlayingText
    else if |gs| >= maxGroups then FullText
    else JoinGameText
  }

  /** The display names of groups, in order. */
  function Names(h: Heap, gs: seq<GroupId>): (ns: seq<string>)
    requires forall g | g in gs :: g in h.groups
    ensures |ns| == |gs|
    ensures forall i | 0 <= i < |gs| :: ns[i] == h.groups[gs[i]].name
  {
    if |gs| == 0 then [] else Names(h, gs[..|gs| - 1]) + [h.groups[gs[|gs| - 1]].name]
  }

  function NameAt(ns: seq<string>, i: nat): string
  {
    if i < |ns| then ns[i] else ""
  }

  /** The text of a column's top sign: the header, then the first three names. */
  function TopLines(header: string, ns: seq<string>): Lines
  {
    [header, NameAt(ns, 0), NameAt(ns, 1), NameAt(ns, 2)]
  }

  /** The index of the last of `n` overflow names that lands on line `j` (names wrap round the four lines). */
  function LastOnLine(n: int, j: int): int
  {
    j + 4 * ((n - 1 - j) / 4)
  }

  lemma LastOnLineStep(n: int, j: int)
    requires 1 <= n && 0 <= j < 4 && j < n
    ensures 0 <= LastOnLine(n, j) < n
    ensures j == (n - 1) % 4 ==> LastOnLine(n, j) == n - 1
    ensures j != (n - 1) % 4 ==> j < n - 1 && LastOnLine(n, j) == LastOnLine(n - 1, j)
  {
    var t, q := (n - 1) % 4, (n - 1) / 4;
    assert n - 1 == 4 * q + t && 0 <= t < 4;
    if j <= t {
      assert n - 1 - j == 4 * q + (t - j);
      assert (n - 1 - j) / 4 == q;
      assert LastOnLine(n, j) == 4 * q + j;
    } else {
      assert n - 1 - j == 4 * (q - 1) + (4 + t - j);
      assert (n - 1 - j) / 4 == q - 1;
      assert LastOnLine(n, j) == 4 * q - 4 + j;
    }
    if j != t {
      if j < t {
        assert n - 2 - j == 4 * q + (t - 1 - j);
        assert (n - 2 - j) / 4 == q;
      } else {
        assert n - 2 - j == 4 * (q - 1) + (3 + t - j);
        assert (n - 2 - j) / 4 == q - 1;
      }
    }
  }

  lemma LastOnLineSteps(n: int)
    requires 1 <= n
    ensures forall j | 0 <= j < 4 && j < n :: 0 <= LastOnLine(n, j) < n
    ensures forall j | 0 <= j < 4 && j < n && j == (n - 1) % 4 :: LastOnLine(n, j) == n - 1
    ensures forall j | 0 <= j < 4 && j < n && j != (n - 1) % 4 :: j < n - 1 && LastOnLine(n, j) == LastOnLine(n - 1, j)
  {
    forall j | 0 <= j < 4 && j < n {
      LastOnLineStep(n, j);
    }
  }

  /**
   * The lower sign's text after writing the overflow names: name `k` goes to
   * line `k % 4`, one after another on the same sign, so a later name
   * overwrites an earlier one.
   */
  function OverflowLines(start: Lines, ns: seq<string>): (r: Lines)
    ensures forall j | 0 <= j < 4 ::
              if j < |ns| then 0 <= LastOnLine(|ns|, j) < |ns| && r[j] == ns[LastOnLine(|ns|, j)] else r[j] == start[j]
  {
    if |ns| == 0 then start
    else
      var n := |ns|;
      var prev := OverflowLines(start, ns[..n - 1]);
      LastOnLineSteps(n);
      prev[(n - 1) % 4 := ns[n - 1]]
  }

  /**
   * Render one column whose top sign position is `top`: skip it when `top`
   * is not a sign; otherwise blank the top sign and every contiguous sign
   * below it, write the header and the first three names on the top sign and
   * the rest onto the sign directly below, from its line 0.
   */
  function RenderColumn(w: World, h: Heap, top: Pos, slot: Option<GameId>, maxGroups: int): (r: Rendered)
    requires SlotOk(h, slot)
    ensures forall p :: At(r.world, p).mat == At(w, p).mat && At(r.world, p).data == At(w, p).data
    ensures forall p: Pos | p.world != top.world || p.x != top.x || p.z != top.z :: At(r.world, p) == At(w, p)
    ensures !IsSign(At(w, top).mat) ==> r == Done(w)
    ensures IsSign(At(w, top).mat) ==>
              forall p: Pos | p.world == top.world && p.x == top.x && p.z == top.z && !(top.y - SignRun(w, top) <= p.y <= top.y) ::
                At(r.world, p) == At(w, p)
    ensures r.CastFailed? <==>
              IsSign(At(w, top).mat) && |SlotGroups(h, slot)| > 3 && !IsSign(At(w, Down(top, 1)).mat)
  {
    if !IsSign(At(w, top).mat) then Done(w)
    else
      var run := SignRun(w, top);
      var ns := Names(h, SlotGroups(h, slot));
      var w1 := ClearRun(w, top, run);
      var w2 := PutLines(w1, top, TopLines(HeaderFor(h, slot, maxGroups), ns));
      var below := Down(top, 1);
      if |ns| <= 3 then Done(w2)
      else if !IsSign(At(w2, below).mat) then CastFailed(w2)
      else Done(PutLines(w2, below, OverflowLines(At(w2, below).lines, ns[3..])))
  }

  /** A rendered column's top sign shows the slot's header and its first three group names. */
  lemma RenderColumnTop(w: World, h: Heap, top: Pos, slot: Option<GameId>, maxGroups: int)
    requires SlotOk(h, slot) && IsSign(At(w, top).mat)
    ensures At(RenderColumn(w, h, top, slot, maxGroups).world, top).lines ==
              TopLines(HeaderFor(h, slot, maxGroups), Names(h, SlotGroups(h, slot)))
  {
    var run := SignRun(w, top);
    var ns := Names(h, SlotGroups(h, slot));
    var w1 := ClearRun(w, top, run);
    var w2 := PutLines(w1, top, TopLines(HeaderFor(h, slot, maxGroups), ns));
    assert Down(top, 1) != top;
  }

  /**
   * Rendering blanks every contiguous sign below a column's top, however
   * far the run goes; only the sign directly below may then get overflow names.
   */
  lemma RenderColumnClears(w: World, h: Heap, top: Pos, slot: Option<GameId>, maxGroups: int, k: int)
    requires SlotOk(h, slot) && IsSign(At(w, top).mat) && 1 <= k <= SignRun(w, top)
    requires k >= 2 || |SlotGroups(h, slot)| <= 3
    ensures At(RenderColumn(w, h, top, slot, maxGroups).world, Down(top, k)).lines == BlankLines
  {
    var run := SignRun(w, top);
    var ns := Names(h, SlotGroups(h, slot));
    var w1 := ClearRun(w, top, run);
    var p := Down(top, k);
    assert InRun(top, run, p);
    var w2 := PutLines(w1, top, TopLines(HeaderFor(h, slot, maxGroups), ns));
    assert p != top;
    var below := Down(top, 1);
    if |ns| <= 3 {
      assert RenderColumn(w, h, top, slot, maxGroups) == Done(w2);
    } else {
      assert IsSign(At(w, Down(top, 1)).mat);
      assert p != below;
      var w3 := PutLines(w2, below, OverflowLines(At(w2, below).lines, ns[3..]));
      assert RenderColumn(w, h, top, slot, maxGroups) == Done(w3);
    }
  }

  /**
   * With more than three groups and a sign directly below the top, the
   * names from the fourth on are written onto that sign from its line 0.
   */
  lemma RenderColumnOverflow(w: World, h: Heap, top: Pos, slot: Option<GameId>, maxGroups: int)
    requires SlotOk(h, slot) && IsSign(At(w, top).mat)
    requires |SlotGroups(h, slot)| > 3 && IsSign(At(w, Down(top, 1)).mat)
    ensures RenderColumn(w, h, top, slot, maxGroups).Done?
    ensures At(RenderColumn(w, h, top, slot, maxGroups).world, Down(top, 1)).lines ==
              OverflowLines(BlankLines, Names(h, SlotGroups(h, slot))[3..])
  {
    var run := SignRun(w, top);
    var ns := Names(h, SlotGroups(h, slot));
    var w1 := ClearRun(w, top, run);
    assert InRun(top, run, Down(top, 1));
    var w2 := PutLines(w1, top, TopLines(HeaderFor(h, slot, maxGroups), ns));
    assert Down(top, 1) != top;
    assert At(w2, Down(top, 1)).lines == BlankLines;
  }

  /**
   * Column `j` of `s` fails its cast over `w`: its top is a sign, its slot
   * holds more than three groups and the block below the top is not a sign.
   */
  predicate ColumnFails(s: GameSign, h: Heap, w: World, j: int)
    requires SlotsOk(s, h)
  {
    0 <= j < |s.games| &&
    IsSign(At(w, Column(s.anchor, s.dir, j)).mat) && |SlotGroups(h, s.games[j])| > 3 &&
    !IsSign(At(w, Down(Column(s.anchor, s.dir, j), 1)).mat)
  }

  /** Render columns `i` onwards, stopping at the first failed cast. */
  function RenderFrom(s: GameSign, h: Heap, w: World, i: nat): (r: Rendered)
    requires SlotsOk(s, h)
    ensures r.CastFailed? <==> exists j | i <= j :: ColumnFails(s, h, w, j)
    decreases |s.games| - i
  {
    if i >= |s.games| then Done(w)
    else
      match RenderColumn(w, h, Column(s.anchor, s.dir, i), s.games[i], s.maxGroupsPerGame)
      case CastFailed(w') =>
        assert ColumnFails(s, h, w, i);
        CastFailed(w')
      case Done(w') =>
        assert forall j | i < j :: ColumnFails(s, h, w', j) == ColumnFails(s, h, w, j);
        RenderFrom(s, h, w', i + 1)
  }

  /**
   * The sign update: render every column of `s`, in order. Since rendering
   * never changes a material, it fails exactly when some column fails its
   * cast over the world it started from.
   */
  function Render(s: GameSign, h: Heap, w: World): (r: Rendered)
    requires SlotsOk(s, h)
    ensures r.CastFailed? <==>
              exists i | 0 <= i < |s.games| ::
                IsSign(At(w, Column(s.anchor, s.dir, i)).mat) && |SlotGroups(h, s.games[i])| > 3 &&
                !IsSign(At(w, Down(Column(s.anchor, s.dir, i), 1)).mat)
  {
    var r := RenderFrom(s, h, w, 0);
    assert forall j :: ColumnFails(s, h, w, j) <==>
             0 <= j < |s.games| && IsSign(At(w, Column(s.anchor, s.dir, j)).mat) && |SlotGroups(h, s.games[j])| > 3 &&
             !IsSign(At(w, Down(Column(s.anchor, s.dir, j), 1)).mat);
    r
  }

  /** Rendering changes sign text only: no block changes material or data. */
  lemma {:induction false} RenderPreservesBlocks(s: GameSign, h: Heap, w: World, i: nat)
    requires SlotsOk(s, h)
    ensures forall p :: At(RenderFrom(s, h, w, i).world, p).mat == At(w, p).mat
    ensures forall p :: At(RenderFrom(s, h, w, i).world, p).data == At(w, p).data
    decreases |s.games| - i
  {
    if i < |s.games| {
      var c := RenderColumn(w, h, Column(s.anchor, s.dir, i), s.games[i], s.maxGroupsPerGame);
      if c.Done? {
        RenderPreservesBlocks(s, h, c.world, i + 1);
      }
    }
  }

  /** Rendering columns `i` onwards leaves every block outside those columns as it was. */
  lemma {:induction false} RenderFromFrame(s: GameSign, h: Heap, w: World, i: nat, p: Pos)
    requires SlotsOk(s, h)
    requires forall j | i <= j < |s.games| :: p.world != s.anchor.world || p.x != Column(s.anchor, s.dir, j).x || p.z != Column(s.anchor, s.dir, j).z
    ensures At(RenderFrom(s, h, w, i).world, p) == At(w, p)
    decreases |s.games| - i
  {
    if i < |s.games| {
      var c := RenderColumn(w, h, Column(s.anchor, s.dir, i), s.games[i], s.maxGroupsPerGame);
      if c.Done? {
        RenderFromFrame(s, h, c.world, i + 1, p);
      }
    }
  }

  /**
   * A failed cast ends the update: when column `j` is the first column from
   * `i` on that fails, the render fails and no block off the x/z lines of
   * columns `i`..`j` changes, so every later column keeps its old text.
   */
  lemma {:induction false} RenderStopsAtFailure(s: GameSign, h: Heap, w: World, i: nat, j: nat, p: Pos)
    requires SlotsOk(s, h)
    requires i <= j && ColumnFails(s, h, w, j)
    requires forall k | i <= k < j :: !ColumnFails(s, h, w, k)
    requires p.world != s.anchor.world ||
             forall k | i <= k <= j :: p.x != Column(s.anchor, s.dir, k).x || p.z != Column(s.anchor, s.dir, k).z
    ensures RenderFrom(s, h, w, i).CastFailed?
    ensures At(RenderFrom(s, h, w, i).world, p) == At(w, p)
    decreases j - i
  {
    var c := RenderColumn(w, h, Column(s.anchor, s.dir, i), s.games[i], s.maxGroupsPerGame);
    if i < j {
      assert !ColumnFails(s, h, w, i);
      assert forall k | i < k :: ColumnFails(s, h, c.world, k) == ColumnFails(s, h, w, k);
      RenderStopsAtFailure(s, h, c.world, i + 1, j, p);
    }
  }

  /** A whole render leaves every block off the columns' x/z lines as it was. */
  lemma RenderFrame(s: GameSign, h: Heap, w: World)
    requires SlotsOk(s, h)
    ensures forall p: Pos | p.world != s.anchor.world ||
                            forall j | 0 <= j < |s.games| :: p.x != Column(s.anchor, s.dir, j).x || p.z != Column(s.anchor, s.dir, j).z ::
              At(Render(s, h, w).world, p) == At(w, p)
  {
    forall p: Pos | p.world != s.anchor.world ||
                    forall j | 0 <= j < |s.games| :: p.x != Column(s.anchor, s.dir, j).x || p.z != Column(s.anchor, s.dir, j).z
      ensures At(Render(s, h, w).world, p) == At(w, p)
    {
      RenderFromFrame(s, h, w, 0, p);
    }
  }

  /** Distinct columns of a unit step lie on distinct x (or z) lines. */
  lemma ColumnsDistinct(anchor: Pos, d: Dir, i: int, j: int)
    requires IsUnit(d) && i != j
    ensures Column(anchor, d, i).x != Column(anchor, d, j).x || Column(anchor, d, i).z != Column(anchor, d, j).z
  {
  }

  /**
   * After a complete render of a sign with a unit step, every column whose
   * top is a sign shows its slot's header and first three group names.
   */
  lemma {:induction false} RenderShowsSlots(s: GameSign, h: Heap, w: World, from: nat)
    requires SlotsOk(s, h) && IsUnit(s.dir)
    requires RenderFrom(s, h, w, from).Done?
    ensures forall i | from <= i < |s.games| && IsSign(At(w, Column(s.anchor, s.dir, i)).mat) ::
              At(RenderFrom(s, h, w, from).world, Column(s.anchor, s.dir, i)).lines ==
                TopLines(HeaderFor(h, s.games[i], s.maxGroupsPerGame), Names(h, SlotGroups(h, s.games[i])))
    decreases |s.games| - from
  {
    if from < |s.games| {
      var top := Column(s.anchor, s.dir, from);
      var c := RenderColumn(w, h, top, s.games[from], s.maxGroupsPerGame);
      assert c.Done?;
      if IsSign(At(w, top).mat) {
        RenderColumnTop(w, h, top, s.games[from], s.maxGroupsPerGame);
      }
      RenderShowsSlots(s, h, c.world, from + 1);
      forall j | from + 1 <= j < |s.games|
        ensures top.world != s.anchor.world || top.x != Column(s.anchor, s.dir, j).x || top.z != Column(s.anchor, s.dir, j).z
      {
        ColumnsDistinct(s.anchor, s.dir, from, j);
      }
      RenderFromFrame(s, h, c.world, from + 1, top);
    }
  }

  /** A sign with every slot empty always renders completely (no names, so no cast). */
  lemma {:induction false} RenderEmptyCompletes(s: GameSign, h: Heap, w: World, from: nat)
    requires forall j | 0 <= j < |s.games| :: s.games[j].None?
    ensures SlotsOk(s, h) && RenderFrom(s, h, w, from).Done?
    decreases |s.games| - from
  {
    if from < |s.games| {
      var c := RenderColumn(w, h, Column(s.anchor, s.dir, from), s.games[from], s.maxGroupsPerGame);
      RenderEmptyCompletes(s, h, c.world, from + 1);
    }
  }

  /**
   * Five groups A..E on a two-sign column with a cap of five: the top sign
   * shows the full header and A, B, C; the sign below shows D and E on its
   * lines 0 and 1.
   */
  lemma FiveGroupsLayout(w: World, h: Heap, top: Pos, slot: Option<GameId>)
    requires SlotOk(h, slot) && IsSign(At(w, top).mat) && IsSign(At(w, Down(top, 1)).mat)
    requires Names(h, SlotGroups(h, slot)) == ["A", "B", "C", "D", "E"]
    requires !h.groups[SlotGroups(h, slot)[0]].playing
    ensures At(RenderColumn(w, h, top, slot, 5).world, top).lines == [FullText, "A", "B", "C"]
    ensures At(RenderColumn(w, h, top, slot, 5).world, Down(top, 1)).lines == ["D", "E", "", ""]
  {
    var ns := Names(h, SlotGroups(h, slot));
    assert |SlotGroups(h, slot)| == 5;
    assert HeaderFor(h, slot, 5) == FullText;
    RenderColumnTop(w, h, top, slot, 5);
    assert TopLines(FullText, ns) == [FullText, "A", "B", "C"];
    RenderColumnOverflow(w, h, top, slot, 5);
    assert ns[3..] == ["D", "E"];
    assert OverflowLines(BlankLines, ["D", "E"]) == ["D", "E", "", ""];
  }

  /** With more than seven groups the lower sign is written over again from line 0. */
  lemma OverflowWrapsAround(ns: seq<string>)
    requires ns == ["D", "E", "F", "G", "H"]
    ensures OverflowLines(BlankLines, ns) == ["H", "E", "F", "G"]
  {
  }

}
